=== FILE: README.md ===
# Radar chart: from records to geometry

A Dafny model of the part of `RadarChart(id, data, options)` in
`spiderGraph/radarChart.js` that runs before anything is drawn:

- the caller's options are merged over sixteen defaults;
- the axis names are chosen: the configured `fields` (and every record is
  projected onto them by `subsetAndSortData`), or the keys of the first
  record when `fields` is loosely equal to `false`;
- one scale and one axis per field are taken from the caller's
  `scalesAndAxes` table or generated by `autoScalesAxes`:
  - a column whose first value is a string or boolean gets an ordinal scale
    over the blank entry `"  "` followed by the column's distinct texts;
  - any other column gets a linear scale over its extent, with a tick
    formatter that hides the innermost label;
- the records are reshaped into rows of `{axis, value}`;
- the radius is `min(w/2, h/2)`, the angle slice is a full turn divided by
  the number of axes, every scale's range becomes `[0, radius]`, and each
  row becomes a blob with one vertex per axis; `Layout.Outline` gives the
  closed path the chart draws through a blob's vertices.

Modules follow the pipeline:

| module | file | what it holds |
|---|---|---|
| `Wrappers` | wrappers.dfy | `Option` and `Result` |
| `Distinct` | distinct.dfy | duplicate removal in first-occurrence order |
| `JsObject` | jsobject.dfy | objects as insertion-ordered key/value sequences |
| `Values` | values.dfy | field values, their text and numeric coercions, the errors |
| `Config` | config.dfy | defaults, option merge, JavaScript `== false` |
| `Projection` | projection.dfy | `subsetAndSortData`, columns, reshaping |
| `Scales` | scales.dfy | the ordinal (`rangePoints`) and linear scales |
| `Axes` | axes.dfy | tick formats and tick labels |
| `Inference` | inference.dfy | `autoScalesAxes` |
| `Layout` | layout.dfy | radius, angle slice, vertices, closed outline |
| `Chart` | chart.dfy | the whole pipeline, `RadarChart` |

Places where the code throws a `TypeError` become `Failure` values:

- an empty dataset where the first record is read;
- a `fields` option that is neither loosely `false` nor an array;
- a `scalesAndAxes` option that is not a table;
- a field with no entry in the table.

One more `Failure` is the model's own choice: a width or height that is not
a number. JavaScript would coerce it and carry on (see "Left out").

Angles are fractions of a full turn, so `2π` is `1`. The text JavaScript
prints for a number (`String(x)`) is a parameter `show` of every operation
that needs it.

In three places the code does something a reader might not expect; the
model follows the code:

- a configured field that a record does not have is read as `undefined`,
  not reported as an error. On a numeric axis it scales to NaN; on a
  generated ordinal axis the text "undefined" is one of the categories and
  gets a point of its own;
- d3's ordinal `domain()` drops duplicates, so a column value equal to the
  blank entry `"  "` merges with it and the domain is one shorter
  (`Inference.OrdinalDomainShape`);
- `cfg.fields != false` uses loose equality, so `[]`, `[""]`, `["0"]`, `0`
  and `"0"` select every field just as `false` does
  (`Config.ZeroLikeFieldListsEqualFalse`).

## Model

| member | source | states |
|---|---|---|
| Distinct.Unique | spiderGraph/radarChart.js:394-399 | the distinct values of a column: no duplicates, and exactly the elements of the input |
| Distinct.UniqueKeepsFirstOccurrenceOrder | spiderGraph/radarChart.js:394-399 | the distinct values come out ordered by their first occurrence in the column |
| Distinct.DistinctInOrder | spiderGraph/radarChart.js:394-399 | a loop over the column that keeps each value not seen before computes the same sequence as `Unique` |
| Distinct.UniqueOfDistinct | spiderGraph/radarChart.js:394-399 | a column with no repeated value is its own list of distinct values |
| Distinct.UniqueConsFresh | spiderGraph/radarChart.js:400-402 | putting a new value in front of a list puts it in front of the distinct values too |
| JsObject.Get | spiderGraph/radarChart.js:57-57 | `o[k]` finds a value exactly when `k` is a key of `o`, and that value is bound to `k` in `o` |
| JsObject.PutReads | spiderGraph/radarChart.js:370-370 | after `o[k] = v`, reading `k` gives `v` |
| JsObject.PutKeepsOthers | spiderGraph/radarChart.js:370-370 | after `o[k] = v`, every other key reads what it read before |
| JsObject.PutKeys | spiderGraph/radarChart.js:37-37 | after `o[k] = v`, an existing key keeps its place and a new key is appended last |
| Config.MergeReads | spiderGraph/radarChart.js:34-40 | after the merge, a key the caller supplied (and not as `undefined`) reads the caller's value; every other key reads the default |
| Config.MergeKeepsKeys | spiderGraph/radarChart.js:35-39 | the merge never drops or reorders a default key: the old keys are a prefix of the new ones |
| Config.MergeOverwrites | spiderGraph/radarChart.js:33-40 | all supplied keys overwrite, all others keep their default, and no default key moves |
| Config.ConfigureKeepsEveryDefault | spiderGraph/radarChart.js:14-40 | every default key is still present after configuration and holds the caller's value exactly when one was supplied |
| Config.ZeroLikeFieldListsEqualFalse | spiderGraph/radarChart.js:43-43 | the arrays `[]`, `[""]` and `["0"]` compare equal to `false`, so they select every field |
| Config.NamedFieldListsDifferFromFalse | spiderGraph/radarChart.js:43-43 | an array with one ordinary name, or with two names, does not compare equal to `false` |
| Chart.SelectFields | spiderGraph/radarChart.js:43-47 | the fields come from the first record exactly when the option is loosely `false`; they are the option's names exactly when it is an array that is not; anything else fails |
| Chart.ResolveFields | spiderGraph/radarChart.js:43-47 | configured names project every record onto them; otherwise the names are the first record's keys, and that fails exactly on an empty dataset |
| Projection.Column | spiderGraph/radarChart.js:382-385 | one value per record, the record's value for the field or `undefined` when it lacks it |
| Projection.ProjectKeys | spiderGraph/radarChart.js:368-371 | a projected record's keys are the configured names in order, a repeated name kept at its first position |
| Projection.ProjectReads | spiderGraph/radarChart.js:368-371 | a projected record reads the original value for every configured name and has no other key |
| Projection.SubsetAndSort | spiderGraph/radarChart.js:366-375 | one projected record per input record, in the same order |
| Projection.SubsetAndSortRows | spiderGraph/radarChart.js:366-375 | every output record has exactly the distinct configured keys and reads the input's value under each of them |
| Projection.SubsetHasConfiguredKeys | spiderGraph/radarChart.js:366-375 | with distinct configured names, every output record's keys are exactly those names in configured order |
| Projection.ColumnOfSubset | spiderGraph/radarChart.js:366-375 | projection leaves every configured column unchanged |
| Projection.Row | spiderGraph/radarChart.js:65-67 | entry `i` of a reshaped row names field `i` and holds the record's value for it |
| Projection.Reshape | spiderGraph/radarChart.js:64-69 | one reshaped row per record, in record order |
| Projection.ReshapeIgnoresSubset | spiderGraph/radarChart.js:44-69 | reshaping the projected records gives the same rows as reshaping the caller's records |
| Inference.Classify | spiderGraph/radarChart.js:391-391 | a column is categorical exactly when it is non-empty and its first value is a string or a boolean |
| Inference.ClassifyIgnoresLaterValues | spiderGraph/radarChart.js:391-391 | values after the first never change the classification |
| Inference.Texts | spiderGraph/radarChart.js:396-398 | the key d3 groups each value under is its text |
| Inference.OrdinalTicks | spiderGraph/radarChart.js:394-400 | the tick values are the blank entry followed by the column's distinct texts |
| Inference.OrdinalDomainShape | spiderGraph/radarChart.js:394-402 | the ordinal domain starts with the blank entry, has no duplicates, holds every text of the column and nothing else; it is one longer than the distinct texts unless a text equals the blank entry, in which case the two merge |
| Inference.PlaceholderMerges | spiderGraph/radarChart.js:400-402 | a text equal to the blank entry adds nothing to the domain |
| Inference.Extent | spiderGraph/radarChart.js:411-413 | `None` exactly when no value is numeric; otherwise a low no greater than every number and a high no less than it, both attained in the column |
| Inference.AutoScaleAxis | spiderGraph/radarChart.js:390-428 | a categorical column gets the ordinal scale over its domain with its tick values listed; a numeric one gets a linear scale over its extent (unset without numbers) and the first-tick-hiding formatter |
| Inference.Table | spiderGraph/radarChart.js:380-433 | one generated scale/axis entry per key, in key order, each built from that key's column |
| Inference.AutoScalesAxes | spiderGraph/radarChart.js:376-435 | fails exactly on an empty dataset; otherwise has the first record's keys in order, each bound to the pair generated from its column |
| Inference.AutoScaleCoversColumn | spiderGraph/radarChart.js:390-415 | every value of a categorical column, and every number or boolean of a numeric column, scales into `[0, radius]`; anything else in a numeric column scales to NaN |
| Inference.AutoOrdinalSpansRange | spiderGraph/radarChart.js:400-402 | in a generated ordinal scale the blank entry sits at the centre and the last distinct value on the outer circle |
| Inference.UniqueLowHighLow | spiderGraph/radarChart.js:394-399 | the values "low", "high", "low" have the distinct values "low", "high" |
| Inference.RepeatAfterOtherDropped | spiderGraph/radarChart.js:394-399 | of the values `a, b, a` only `a, b` are kept, in that order |
| Inference.LowHighDomainExample | spiderGraph/radarChart.js:394-402 | the column "low", "high", "low" gets the domain `"  "`, "low", "high" |
| Inference.LowHighPlacementExample | spiderGraph/radarChart.js:78-79 | in that domain "high" lands on the outer circle |
| Inference.ZeroFiveExample | spiderGraph/radarChart.js:411-415 | the column 0, 5 gets the linear domain `[0, 5]`, with 0 at the centre and 5 on the outer circle |
| Values.Text | spiderGraph/radarChart.js:396-398 | `String(v)`: a string is its own text, booleans read "true" and "false", `undefined` reads "undefined", and a number reads as the engine prints it |
| Values.AsNumber | spiderGraph/radarChart.js:411-415 | the number the model reads from a value: a number is itself, `true` and `false` are 1 and 0 as in d3, and strings and `undefined` are not numbers (d3 would coerce strings, see "Left out") |
| Scales.Apply | spiderGraph/radarChart.js:76-83 | an ordinal scale gives a radius exactly for the texts in its domain; a linear one exactly for numbers and booleans; an unset one never |
| Scales.OrdinalIgnoresRepeats | spiderGraph/radarChart.js:402-402 | an ordinal scale given repeated domain values behaves as if each were given once |
| Scales.RepeatsDropped | spiderGraph/radarChart.js:402-402 | of the domain values `a, a, b` only `a, b` are kept |
| Scales.RepeatedDomainExample | spiderGraph/radarChart.js:78-79 | the domain "a", "a", "b" has two points, so "b" lands on the outer circle |
| Scales.OrdinalSpansRange | spiderGraph/radarChart.js:78-79 | with two or more distinct domain entries, the first maps to 0 and the last to the radius |
| Scales.OrdinalEvenlySpaced | spiderGraph/radarChart.js:78-79 | neighbouring domain entries are `radius / (n - 1)` apart |
| Scales.OrdinalWithinRange | spiderGraph/radarChart.js:78-79 | every domain entry maps into `[0, radius]` |
| Scales.PointWithinRange | spiderGraph/radarChart.js:78-79 | each of the `n` evenly spread points lies in `[0, radius]` |
| Scales.LinearSpansRange | spiderGraph/radarChart.js:80-81 | a linear scale maps the low end of its domain to 0 and the high end to the radius |
| Scales.LinearDegenerate | spiderGraph/radarChart.js:80-81 | a linear scale over a single number maps every number to 0 |
| Scales.LinearWithinRange | spiderGraph/radarChart.js:80-81 | a number inside the domain maps into `[0, radius]` |
| Axes.TickLabel | spiderGraph/radarChart.js:420-426 | the numeric formatter prints nothing at tick index 0 and the tick's text elsewhere; the blank formatter prints nothing; the default label of an ordinal axis is the tick's text |
| Axes.NumericTickLabels | spiderGraph/radarChart.js:420-426 | the innermost numeric tick is unlabelled and every other one shows its value |
| Axes.Labelled | spiderGraph/radarChart.js:136-141 | unless `tickLabels` is exactly `true` the axis gets the blank formatter; it keeps its tick values either way |
| Axes.UnlabelledTicksAreBlank | spiderGraph/radarChart.js:137-141 | with tick labels off, every tick's label is empty |
| Layout.Radius | spiderGraph/radarChart.js:72-72 | the radius is at most half the width and half the height, and equals one of them |
| Layout.AngleSlice | spiderGraph/radarChart.js:73-73 | the slice is unbounded exactly when there are no axes; otherwise `total` slices make a full turn |
| Layout.VertexTurn | spiderGraph/radarChart.js:171-173 | axis `i` of `total` points at `i / total` of a turn, inside `[0, 1)` |
| Layout.AxesEquallySpaced | spiderGraph/radarChart.js:171-173 | axes go round in increasing order, `j - i` slices apart |
| Layout.Blob | spiderGraph/radarChart.js:165-173 | vertex `i` of a row points along axis `i` at scale `i` applied to entry `i` |
| Layout.BlobGoesRound | spiderGraph/radarChart.js:165-173 | the vertices of a blob point in increasing directions within one turn, consecutive axes one slice apart |
| Layout.Outline | spiderGraph/radarChart.js:165-167 | the closed path visits every vertex in axis order and returns to the first |
| Chart.LookUpAll | spiderGraph/radarChart.js:56-61 | succeeds exactly when every field has an entry, returning entry `i` for field `i`; otherwise names the first field without one |
| Chart.Size | spiderGraph/radarChart.js:72-72 | the width or height is read exactly when it is a number |
| Chart.Assemble | spiderGraph/radarChart.js:71-173 | scale `i` and axis `i` come from pair `i` (the axis relabelled by `tickLabels`), and vertex `i` of blob `j` is scale `i` applied to row `j`'s entry `i` at angle `i / total` |
| Chart.SelectAndProject | spiderGraph/radarChart.js:42-47 | field selection succeeds exactly when `fields` is loosely `false` with data present, or an array; the projected records keep every selected column and reshape to the same rows |
| Chart.SelectedColumnsUnchanged | spiderGraph/radarChart.js:43-47 | after selection every field is a key of the first record and its column is unchanged |
| Chart.ScaleSource | spiderGraph/radarChart.js:50-55 | with `scalesAndAxes === false` the table is generated and exists exactly when there are records; a supplied table is used as given; any other value fails as soon as a field is looked up in it, and not at all when there are no fields |
| Chart.ScalesFor | spiderGraph/radarChart.js:50-61 | one pair per field. Generated pairs are built from the field's column and exist exactly when there is a record and every field is a key of the first one. With a supplied table, pair `i` is the table's entry for field `i`, and the lookup succeeds exactly when every field has an entry; otherwise it names a missing field. Any other value fails exactly when there are fields |
| Chart.Resolve | spiderGraph/radarChart.js:42-61 | with generated scales, pair `i` is built from the caller's column for field `i`, and resolution succeeds exactly when there are records and `fields` is loosely `false` or an array, so a configured list with no records fails; with a supplied table, pair `i` is the table's entry for field `i` |
| Chart.SuppliedScalesResolve | spiderGraph/radarChart.js:42-61 | with supplied scales, resolution fails when field selection fails; otherwise it succeeds exactly when the table has an entry for every selected field, or, for a value that is no table, exactly when no field is selected |
| Chart.Render | spiderGraph/radarChart.js:42-173 | one row and one blob per record, one scale and axis per field, axis `i` blanked unless `tickLabels` is exactly `true`, radius and slice from `w`, `h` and the field count, and every vertex at its axis's angle and scaled value; it succeeds when resolution does and both sizes are numbers |
| Chart.AutoScaledBlobsInsideCircle | spiderGraph/radarChart.js:50-83 | with generated scales, every vertex of a categorical axis, and every numeric vertex of a numeric axis, lies between the centre and the outer circle |
| Chart.AutoScaledChartSucceeds | spiderGraph/radarChart.js:43-61 | generated scales never miss a field: with data, numeric sizes and a usable `fields` option the chart is built |
| Chart.RadarChart | spiderGraph/radarChart.js:13-73 | one row and one blob per record; without options the chart exists exactly when there are records, with the first record's keys as axes and radius 300 |
| Chart.DefaultChart | spiderGraph/radarChart.js:14-73 | with the default configuration, a non-empty dataset is charted over the first record's keys with radius 300 |
| Chart.ChartFromFirstRecord | spiderGraph/radarChart.js:42-73 | with width 800, height 600 and both `fields` and `scalesAndAxes` equal to `false`, a non-empty dataset is charted over the first record's keys with radius 300 |
| Chart.DefaultChartNeedsRecords | spiderGraph/radarChart.js:43-47 | with the default configuration and no records the chart fails on the missing first record |
| Chart.NoRecordsNoFields | spiderGraph/radarChart.js:43-47 | whenever `fields` is `false`, no records means no chart: `Object.keys(data[0])` has no record to read |
| Chart.DefaultWidth | spiderGraph/radarChart.js:15-15 | the default width is 800 |
| Chart.DefaultHeight | spiderGraph/radarChart.js:16-16 | the default height is 600 |
| Chart.DefaultFields | spiderGraph/radarChart.js:29-29 | by default `fields` is `false` |
| Chart.DefaultScales | spiderGraph/radarChart.js:30-30 | by default `scalesAndAxes` is `false`, so scales are generated |

## Left out

- Drawing: the SVG container and transforms, grid circles, axis lines,
  category labels and `wrap`, blob areas, strokes, dots, hover effects,
  tooltips, transitions and colours. They produce DOM output only.
- The cosine and sine projection of each vertex onto the plane. Vertices
  are kept in polar form (angle as a fraction of a turn, scaled radius).
- The `cardinal-closed` curve used when `roundStrokes` is set. Only the
  `linear-closed` outline is modelled.
- The tick values d3 picks for a linear axis, and linear scales with more
  than two domain stops. A generated domain always has two.
- The engine's text for a number (`String(x)`). It is the parameter `show`.
- JavaScript's key order for integer-like keys. `Object.keys` and d3's map
  list such keys first in ascending order; the model keeps insertion order
  for every key.
- `console.log` calls.
- Floating point. Numbers are exact reals, not IEEE doubles: rounding and
  underflow are not modelled. Equalities such as the last ordinal point
  sitting exactly on `radius` (`Scales.OrdinalSpansRange`,
  `Inference.AutoOrdinalSpansRange`) hold in the model and only up to
  rounding in the program: `49 * (1 / 49)` is `0.9999999999999999` in
  doubles. A numeric text that underflows to 0, such as `"1e-400"`, is
  loosely `false` in JavaScript but not in `Config.LooselyFalse`.
- Values.AsNumber: every string reads as no number. JavaScript's unary `+`,
  which d3's linear scale applies through `(x - a) / b`, turns `"7"` into 7,
  `""` and `"  "` into 0, and other strings into NaN; modelling that needs
  the engine's string-to-number conversion, which is not part of this model.
- Inference.Extent: every string in a column classified as numeric is
  skipped. `d3.extent` instead takes the first value that is neither
  `undefined` nor NaN as both ends, so a string with no number or boolean
  before it becomes the seed; later values are compared with JavaScript's
  `<` and `>`, two strings as text and mixed pairs after conversion to
  numbers. For example, `[undefined, "x", 3]` gives the domain `["x", "x"]`
  in d3, which scales every value to NaN, while the model gives `[3, 3]`.
- Inference.AutoScaleCoversColumn: inherits the Extent gap. On a numeric
  column holding strings, the numbers it places in `[0, radius]` can be NaN
  in d3.
- Chart.AutoScaledBlobsInsideCircle: inherits the Extent gap the same way
  for generated numeric axes whose column holds strings.
- Scales.Apply: a string given to a linear scale scales to NaN. d3 coerces
  any string with `+`, so a numeric string gives its number and a blank
  string gives the position of 0.
- Chart.Size: a width or height that is not a number is an error; JavaScript
  would coerce it and carry on with NaN or a number.

=== FILE: axes.dfy ===
/**
 * The axis attached to each scale and the text it prints under each tick.
 * An axis either lists its tick values (ordinal axes) or leaves them to the
 * scale (linear axes); its format decides each tick's label.
 */
module Axes {
  import opened Wrappers
  import opened Values
  import opened Scales

  /**
   * `Identity`: the default label of an ordinal axis, the tick's own text.
   * `HideFirst`: the formatter of numeric axes, blank at tick index 0.
   * `Blank`: the formatter installed when tick labels are switched off.
   */
  datatype TickFormat = Identity | HideFirst | Blank

  datatype Axis = Axis(tickValues: Option<seq<string>>, format: TickFormat)

  /** One entry of the `autos` table: a scale and the axis drawn for it. */
  datatype ScaleAxis = ScaleAxis(scale: Scale, axis: Axis)

  /** The label an axis prints for the tick `tick` at position `index`. */
  function TickLabel(format: TickFormat, tick: Value, index: nat, show: NumberFormat): (caption: string)
    ensures format.Blank? ==> caption == ""
    ensures format.HideFirst? && index == 0 ==> caption == ""
    ensures format.HideFirst? && index != 0 ==> caption == Text(tick, show)
    ensures format.Identity? ==> caption == Text(tick, show)
  {
    match format
    case Identity => Text(tick, show)
    case HideFirst => if index != 0 then Text(tick, show) else ""
    case Blank => ""
  }

  /** The axis as drawn: unless `tickLabels` is exactly `true`, its formatter is replaced by a blank one. */
  function Labelled(axis: Axis, tickLabels: bool): (a: Axis)
    ensures a.tickValues == axis.tickValues
    ensures tickLabels ==> a == axis
    ensures !tickLabels ==> a.format == Blank
  {
    if tickLabels then axis else axis.(format := Blank)
  }

  /** Switching tick labels off blanks every label, whatever the number formatting. */
  lemma UnlabelledTicksAreBlank(axis: Axis, tick: Value, index: nat, show: NumberFormat)
    ensures TickLabel(Labelled(axis, false).format, tick, index, show) == ""
  {
  }

  /** The innermost tick of a numeric axis has no label; every other tick shows its value. */
  lemma NumericTickLabels(tick: Value, index: nat, show: NumberFormat)
    ensures TickLabel(HideFirst, tick, 0, show) == ""
    ensures index != 0 ==> TickLabel(HideFirst, tick, index, show) == Text(tick, show)
  {
  }
}

=== FILE: chart.dfy ===
/**
 * `RadarChart(id, data, options)` up to the point where drawing starts:
 * merge the options, choose and project the fields, build or look up one
 * scale and axis per field, reshape the records, and lay the blobs out.
 */
module Chart {
  import opened Wrappers
  import opened JsObject
  import opened Values
  import opened Projection
  import opened Scales
  import opened Axes
  import opened Inference
  import opened Config
  import opened Layout

  /** Everything the drawing code reads. */
  datatype Chart = Chart(
    fields: seq<string>,        // axis names, in axis order
    rows: seq<seq<Entry>>,      // one row of `{axis, value}` per record
    scales: seq<Scale>,         // scale `i` belongs to `fields[i]`
    axes: seq<Axis>,            // axis `i` belongs to `fields[i]`
    radius: real,               // the outermost circle
    slice: Slice,               // the angle between neighbouring axes
    blobs: seq<seq<Vertex>>)    // one blob per record

  /** `cfg[key]`. */
  function Setting(cfg: Obj<Opt>, key: string): Opt {
    match Get(cfg, key)
    case Some(v) => v
    case None => Undefined
  }

  /**
   * `cfg.fields != false`: `Some(names)` when the records are to be
   * projected onto `names`, `None` when the fields are taken from the first
   * record. Any other truthy value ends in a TypeError at `fields.map`.
   */
  function SelectFields(o: Opt): (r: Result<Option<seq<string>>, Error>)
    ensures r == Success(None) <==> LooselyFalse(o)
    ensures r.Success? && r.value.Some? <==> o.FieldList? && !LooselyFalse(o)
    ensures r.Success? && r.value.Some? ==> r.value.value == o.names
  {
    if LooselyFalse(o) then Success(None)
    else if o.FieldList? then Success(Some(o.names))
    else Failure(FieldsNotAList)
  }

  /** The data the scales are built from and the axis names, after field selection. */
  function ResolveFields(data: seq<Record>, selection: Option<seq<string>>): (r: Result<(seq<Record>, seq<string>), Error>)
    ensures r.Failure? <==> selection.None? && |data| == 0
    ensures r.Success? && selection.Some? ==> r.value == (SubsetAndSort(data, selection.value), selection.value)
    ensures r.Success? && selection.None? ==> r.value == (data, Keys(data[0]))
  {
    match selection
    case Some(names) => Success((SubsetAndSort(data, names), names))
    case None => if |data| == 0 then Failure(EmptyDataset) else Success((data, Keys(data[0])))
  }

  /**
   * `autos`: generated when `scalesAndAxes === false`, otherwise the supplied
   * table. Any other value has no `{scale, axis}` entries, so reading one
   * throws; with no fields nothing is read and nothing fails.
   */
  function ScaleSource(o: Opt, data: seq<Record>, fields: seq<string>, show: NumberFormat): (r: Result<Obj<ScaleAxis>, Error>)
    ensures o == Flag(false) ==> (r.Success? <==> |data| > 0)
    ensures o == Flag(false) && r.Success? ==> forall k | k in Keys(data[0]) ::
              Get(r.value, k) == Some(AutoScaleAxis(Column(data, k), show))
    ensures o.ScaleTable? ==> r == Success(o.entries)
    ensures o != Flag(false) && !o.ScaleTable? ==> (r.Success? <==> |fields| == 0)
    ensures o != Flag(false) && !o.ScaleTable? && r.Success? ==> r.value == []
    ensures o != Flag(false) && r.Failure? ==> r.error == ScalesNotATable
  {
    if o == Flag(false) then AutoScalesAxes(data, show)
    else if o.ScaleTable? then Success(o.entries)
    else if |fields| == 0 then Success([])
    else Failure(ScalesNotATable)
  }

  /** `fields.map(k => autos[k])`, failing at the first field without an entry. */
  function LookUpAll(autos: Obj<ScaleAxis>, fields: seq<string>): (r: Result<seq<ScaleAxis>, Error>)
    ensures r.Success? <==> forall i | 0 <= i < |fields| :: fields[i] in Keys(autos)
    ensures r.Success? ==> |r.value| == |fields|
    ensures r.Success? ==> forall i | 0 <= i < |fields| :: Get(autos, fields[i]) == Some(r.value[i])
    ensures r.Failure? ==> exists i | 0 <= i < |fields| ::
              && fields[i] !in Keys(autos)
              && (forall i' | 0 <= i' < i :: fields[i'] in Keys(autos))
              && r.error == MissingScale(fields[i])
  {
    if |fields| == 0 then Success([])
    else
      match Get(autos, fields[0])
      case None => Failure(MissingScale(fields[0]))
      case Some(sa) =>
        match LookUpAll(autos, fields[1..])
        case Failure(e) =>
          assert forall i | 1 <= i < |fields| :: fields[i] == fields[1..][i - 1];
          Failure(e)
        case Success(rest) =>
          assert forall i | 1 <= i < |fields| :: fields[i] == fields[1..][i - 1];
          Success([sa] + rest)
  }

  /** `cfg.w` or `cfg.h` as a number. */
  function Size(cfg: Obj<Opt>, key: string): (r: Result<real, Error>)
    ensures r.Success? <==> Setting(cfg, key).Number?
    ensures r.Success? ==> r.value == Setting(cfg, key).n
  {
    match Setting(cfg, key)
    case Number(n) => Success(n)
    case _ => Failure(SizeNotANumber(key))
  }

  /**
   * Radius, angle slice and blobs for the reshaped rows and the looked-up
   * scale/axis pairs; the axes lose their labels unless `tickLabels` is true.
   */
  function Assemble(fields: seq<string>, rows: seq<seq<Entry>>, pairs: seq<ScaleAxis>,
                    w: real, h: real, showTicks: bool, show: NumberFormat): (c: Chart)
    requires |pairs| == |fields|
    requires forall j | 0 <= j < |rows| :: |rows[j]| == |fields|
    ensures c.fields == fields && c.rows == rows
    ensures |c.scales| == |fields| && |c.axes| == |fields| && |c.blobs| == |rows|
    ensures forall i | 0 <= i < |fields| :: c.scales[i] == pairs[i].scale
    ensures forall i | 0 <= i < |fields| :: c.axes[i] == Labelled(pairs[i].axis, showTicks)
    ensures c.radius == Radius(w, h) && c.slice == AngleSlice(|fields|)
    ensures forall j, i | 0 <= j < |rows| && 0 <= i < |fields| ::
              && |c.blobs[j]| == |fields|
              && c.blobs[j][i] == Vertex(VertexTurn(i, |fields|), Apply(c.scales[i], c.radius, rows[j][i].value, show))
  {
    var radius := Radius(w, h);
    var scales := seq(|pairs|, i requires 0 <= i < |pairs| => pairs[i].scale);
    var axes := seq(|pairs|, i requires 0 <= i < |pairs| => Labelled(pairs[i].axis, showTicks));
    var blobs := seq(|rows|, j requires 0 <= j < |rows| => Blob(rows[j], scales, radius, show));
    Chart(fields, rows, scales, axes, radius, AngleSlice(|fields|), blobs)
  }

  /** The records after field selection, the axis names, and one scale/axis pair per axis. */
  datatype Resolved = Resolved(projected: seq<Record>, fields: seq<string>, pairs: seq<ScaleAxis>)

  /** `scalesAndAxes` is `false`, so the scales are generated from the data. */
  predicate AutoScaled(cfg: Obj<Opt>) {
    Setting(cfg, "scalesAndAxes") == Flag(false)
  }

  /**
   * Field selection and projection: the records the scales are read from
   * and the axis names. Projection leaves every selected column as it was,
   * and every selected field is a key of the first projected record.
   */
  function SelectAndProject(data: seq<Record>, o: Opt): (r: Result<(seq<Record>, seq<string>), Error>)
    ensures r.Success? <==> (LooselyFalse(o) && |data| > 0) || (o.FieldList? && !LooselyFalse(o))
    ensures r.Success? && LooselyFalse(o) ==> r.value.1 == Keys(data[0])
    ensures r.Success? && !LooselyFalse(o) ==> r.value.1 == o.names
    ensures r.Success? ==> |r.value.0| == |data|
    ensures r.Success? ==> Reshape(r.value.0, r.value.1) == Reshape(data, r.value.1)
    ensures r.Success? ==> forall i | 0 <= i < |r.value.1| ::
              Column(r.value.0, r.value.1[i]) == Column(data, r.value.1[i])
    ensures r.Success? && |data| > 0 ==> forall i | 0 <= i < |r.value.1| ::
              r.value.1[i] in Keys(r.value.0[0])
  {
    var selection :- SelectFields(o);
    var (projected, fields) :- ResolveFields(data, selection);
    SelectedColumnsUnchanged(data, selection);
    ReshapeIgnoresSubset(data, fields);
    Success((projected, fields))
  }

  /**
   * One scale/axis pair per field. Generated pairs are built from the
   * field's column, and they exist for every field that is a key of the
   * first record.
   */
  function ScalesFor(o: Opt, projected: seq<Record>, fields: seq<string>, show: NumberFormat): (r: Result<seq<ScaleAxis>, Error>)
    ensures r.Success? ==> |r.value| == |fields|
    ensures r.Success? && o == Flag(false) ==> forall i | 0 <= i < |fields| ::
              r.value[i] == AutoScaleAxis(Column(projected, fields[i]), show)
    ensures o == Flag(false) ==>
              (r.Success? <==> |projected| > 0 && forall i | 0 <= i < |fields| :: fields[i] in Keys(projected[0]))
    ensures o.ScaleTable? ==> (r.Success? <==> forall i | 0 <= i < |fields| :: fields[i] in Keys(o.entries))
    ensures o.ScaleTable? && r.Success? ==> forall i | 0 <= i < |fields| :: Get(o.entries, fields[i]) == Some(r.value[i])
    ensures o.ScaleTable? && r.Failure? ==> exists i | 0 <= i < |fields| ::
              fields[i] !in Keys(o.entries) && r.error == MissingScale(fields[i])
    ensures o != Flag(false) && !o.ScaleTable? ==> (r.Success? <==> |fields| == 0)
    ensures o != Flag(false) && !o.ScaleTable? && r.Failure? ==> r.error == ScalesNotATable
  {
    var autos :- ScaleSource(o, projected, fields, show);
    LookUpAll(autos, fields)
  }

  /**
   * Every selected field is a key of the first selected record, and its
   * column is the same before and after projection.
   */
  lemma SelectedColumnsUnchanged(data: seq<Record>, selection: Option<seq<string>>)
    requires ResolveFields(data, selection).Success?
    ensures var (projected, fields) := ResolveFields(data, selection).value;
            && |projected| == |data|
            && (|data| > 0 ==> forall i | 0 <= i < |fields| :: fields[i] in Keys(projected[0]))
            && forall i | 0 <= i < |fields| :: Column(projected, fields[i]) == Column(data, fields[i])
  {
    var (projected, fields) := ResolveFields(data, selection).value;
    if selection.Some? {
      SubsetAndSortRows(data, fields);
      forall i | 0 <= i < |fields|
        ensures Column(projected, fields[i]) == Column(data, fields[i])
      {
        ColumnOfSubset(data, fields, fields[i]);
      }
    }
  }

  /** Field selection, projection and scale lookup. */
  function Resolve(data: seq<Record>, cfg: Obj<Opt>, show: NumberFormat): (r: Result<Resolved, Error>)
    ensures r.Success? ==> |r.value.pairs| == |r.value.fields|
    ensures r.Success? ==> Reshape(r.value.projected, r.value.fields) == Reshape(data, r.value.fields)
    ensures r.Success? && LooselyFalse(Setting(cfg, "fields")) ==> |data| > 0 && r.value.fields == Keys(data[0])
    ensures r.Success? && !LooselyFalse(Setting(cfg, "fields")) ==>
              Setting(cfg, "fields").FieldList? && r.value.fields == Setting(cfg, "fields").names
    ensures r.Success? && AutoScaled(cfg) ==> forall i | 0 <= i < |r.value.fields| ::
              r.value.pairs[i] == AutoScaleAxis(Column(data, r.value.fields[i]), show)
    ensures AutoScaled(cfg) ==>
              (r.Success? <==> |data| > 0 && (LooselyFalse(Setting(cfg, "fields")) || Setting(cfg, "fields").FieldList?))
    ensures r.Success? && Setting(cfg, "scalesAndAxes").ScaleTable? ==> forall i | 0 <= i < |r.value.fields| ::
              Get(Setting(cfg, "scalesAndAxes").entries, r.value.fields[i]) == Some(r.value.pairs[i])
  {
    var (projected, fields) :- SelectAndProject(data, Setting(cfg, "fields"));
    var pairs :- ScalesFor(Setting(cfg, "scalesAndAxes"), projected, fields, show);
    Success(Resolved(projected, fields, pairs))
  }

  /**
   * When the scales are supplied, resolution fails on field selection, on a
   * field the table has no entry for, or on a value that is no table at all
   * while there are fields to look up; otherwise it succeeds.
   */
  lemma SuppliedScalesResolve(data: seq<Record>, cfg: Obj<Opt>, show: NumberFormat)
    requires !AutoScaled(cfg)
    ensures SelectAndProject(data, Setting(cfg, "fields")).Failure? ==> Resolve(data, cfg, show).Failure?
    ensures var selected := SelectAndProject(data, Setting(cfg, "fields"));
            var o := Setting(cfg, "scalesAndAxes");
            selected.Success? && o.ScaleTable? ==>
              (Resolve(data, cfg, show).Success? <==>
                 forall i | 0 <= i < |selected.value.1| :: selected.value.1[i] in Keys(o.entries))
    ensures var selected := SelectAndProject(data, Setting(cfg, "fields"));
            var o := Setting(cfg, "scalesAndAxes");
            var r := Resolve(data, cfg, show);
            selected.Success? && !o.ScaleTable? ==>
              && (r.Success? <==> |selected.value.1| == 0)
              && (r.Failure? ==> r.error == ScalesNotATable)
  {
  }

  /** The pipeline once the options are merged. */
  function Render(data: seq<Record>, cfg: Obj<Opt>, show: NumberFormat): (r: Result<Chart, Error>)
    ensures r.Success? ==> Resolve(data, cfg, show).Success?
    ensures r.Success? ==> r.value.fields == Resolve(data, cfg, show).value.fields
    ensures r.Success? ==> |r.value.rows| == |data|
    ensures r.Success? ==> forall j | 0 <= j < |data| :: r.value.rows[j] == Row(data[j], r.value.fields)
    ensures r.Success? ==> |r.value.scales| == |r.value.fields| && |r.value.axes| == |r.value.fields|
    ensures r.Success? ==> forall i | 0 <= i < |r.value.fields| ::
              r.value.scales[i] == Resolve(data, cfg, show).value.pairs[i].scale
    ensures r.Success? ==>
              && Setting(cfg, "w").Number? && Setting(cfg, "h").Number?
              && r.value.radius == Radius(Setting(cfg, "w").n, Setting(cfg, "h").n)
    ensures r.Success? ==> forall i | 0 <= i < |r.value.fields| ::
              r.value.axes[i] == Labelled(Resolve(data, cfg, show).value.pairs[i].axis, Setting(cfg, "tickLabels") == Flag(true))
    ensures r.Success? ==> r.value.slice == AngleSlice(|r.value.fields|)
    ensures r.Success? ==> |r.value.blobs| == |data| && forall j, i | 0 <= j < |data| && 0 <= i < |r.value.fields| ::
              && |r.value.rows[j]| == |r.value.fields| && |r.value.blobs[j]| == |r.value.fields|
              && r.value.blobs[j][i] == Vertex(VertexTurn(i, |r.value.fields|),
                                               Apply(r.value.scales[i], r.value.radius, r.value.rows[j][i].value, show))
    ensures Resolve(data, cfg, show).Success? && Setting(cfg, "w").Number? && Setting(cfg, "h").Number? ==>
              r.Success?
  {
    var res :- Resolve(data, cfg, show);
    var w :- Size(cfg, "w");
    var h :- Size(cfg, "h");
    var rows := Reshape(res.projected, res.fields);
    Success(Assemble(res.fields, rows, res.pairs, w, h, Setting(cfg, "tickLabels") == Flag(true), show))
  }

  /**
   * `RadarChart(id, data, options)`, minus the drawing: one row and one blob
   * per record; without options it succeeds exactly on a non-empty dataset,
   * with the first record's keys as axes and a radius of 300.
   */
  function RadarChart(data: seq<Record>, options: Option<Obj<Opt>>, show: NumberFormat): (r: Result<Chart, Error>)
    ensures r.Success? ==> |r.value.rows| == |data| && |r.value.blobs| == |data|
    ensures options.None? ==> (r.Success? <==> |data| > 0)
    ensures options.None? && r.Success? ==> r.value.fields == Keys(data[0]) && r.value.radius == 300.0
  {
    match options
    case Some(o) => Render(data, Configure(options), show)
    case None =>
      if |data| > 0 then
        DefaultChart(data, show);
        Render(data, Defaults(), show)
      else
        DefaultChartNeedsRecords(show);
        assert data == [];
        Render(data, Defaults(), show)
  }

  /**
   * With generated scales, scale `i` is the one built from the column of
   * `fields[i]` in the caller's records, and every vertex whose value the
   * scale understands lies between the centre and the outer circle.
   */
  lemma AutoScaledBlobsInsideCircle(data: seq<Record>, cfg: Obj<Opt>, show: NumberFormat, j: nat, i: nat)
    requires AutoScaled(cfg)
    requires Render(data, cfg, show).Success?
    requires j < |data| && i < |Render(data, cfg, show).value.fields|
    requires 0.0 <= Render(data, cfg, show).value.radius
    ensures var c := Render(data, cfg, show).value;
            var column := Column(data, c.fields[i]);
            && c.scales[i] == AutoScaleAxis(column, show).scale
            && (Classify(column) == Categorical || AsNumber(c.rows[j][i].value).Some? ==>
                  c.blobs[j][i].radius.At? && 0.0 <= c.blobs[j][i].radius.r <= c.radius)
  {
    var c := Render(data, cfg, show).value;
    var column := Column(data, c.fields[i]);
    assert c.rows[j][i].value == column[j];
    AutoScaleCoversColumn(column, c.radius, show, j);
  }

  /**
   * Generated scales never miss a field: with at least one record, numeric
   * sizes and a `fields` option that is an array or equal to `false`, the
   * pipeline succeeds.
   */
  lemma AutoScaledChartSucceeds(data: seq<Record>, cfg: Obj<Opt>, show: NumberFormat)
    requires |data| > 0 && AutoScaled(cfg)
    requires Setting(cfg, "w").Number? && Setting(cfg, "h").Number?
    requires LooselyFalse(Setting(cfg, "fields")) || Setting(cfg, "fields").FieldList?
    ensures Render(data, cfg, show).Success?
  {
  }

  /** With the default configuration a non-empty dataset is charted over the first record's keys with radius 300. */
  lemma DefaultChart(data: seq<Record>, show: NumberFormat)
    requires |data| > 0
    ensures Render(data, Defaults(), show).Success?
    ensures Render(data, Defaults(), show).value.fields == Keys(data[0])
    ensures Render(data, Defaults(), show).value.radius == 300.0
  {
    DefaultWidth();
    DefaultHeight();
    DefaultFields();
    DefaultScales();
    ChartFromFirstRecord(data, Defaults(), show);
  }

  /**
   * Width 800, height 600, `fields` and `scalesAndAxes` both `false`: a
   * non-empty dataset is charted over the first record's keys with radius 300.
   */
  lemma ChartFromFirstRecord(data: seq<Record>, cfg: Obj<Opt>, show: NumberFormat)
    requires |data| > 0
    requires Setting(cfg, "w") == Number(800.0) && Setting(cfg, "h") == Number(600.0)
    requires Setting(cfg, "fields") == Flag(false) && AutoScaled(cfg)
    ensures Render(data, cfg, show).Success?
    ensures Render(data, cfg, show).value.fields == Keys(data[0])
    ensures Render(data, cfg, show).value.radius == 300.0
  {
    AutoScaledChartSucceeds(data, cfg, show);
  }

  /** With the default configuration and no records there is no first record to take the fields from. */
  lemma DefaultChartNeedsRecords(show: NumberFormat)
    ensures Render([], Defaults(), show) == Failure(EmptyDataset)
  {
    DefaultFields();
    NoRecordsNoFields(Defaults(), show);
  }

  /** Fields taken from the first record need a first record. */
  lemma NoRecordsNoFields(cfg: Obj<Opt>, show: NumberFormat)
    requires Setting(cfg, "fields") == Flag(false)
    ensures Render([], cfg, show) == Failure(EmptyDataset)
  {
  }

  /** The default width is 800. */
  lemma DefaultWidth()
    ensures Setting(Defaults(), "w") == Number(800.0)
  {
    GetAt(Defaults(), 0);
  }

  /** The default height is 600. */
  lemma DefaultHeight()
    ensures Setting(Defaults(), "h") == Number(600.0)
  {
    assert "w"[0] != "h"[0];
    GetAt(Defaults(), 1);
  }

  /** By default the fields come from the first record. */
  lemma DefaultFields()
    ensures Setting(Defaults(), "fields") == Flag(false)
  {
    GetAt(Defaults(), 14);
  }

  /** By default the scales are generated. */
  lemma DefaultScales()
    ensures Setting(Defaults(), "scalesAndAxes") == Flag(false)
  {
    GetAt(Defaults(), 15);
  }
}

=== FILE: config.dfy ===
/**
 * The chart's options: the defaults, the merge of the caller's options over
 * them, and the JavaScript comparisons the chart makes on option values.
 */
module Config {
  import opened Wrappers
  import opened JsObject
  import opened Axes

  /** An option value, by the JavaScript type it has. */
  datatype Opt =
    | Undefined
    | Number(n: real)
    | Flag(b: bool)
    | StringOpt(s: string)
    | FieldList(names: seq<string>)                             // an array of field names
    | Margins(top: real, right: real, bottom: real, left: real)
    | Palette                                                   // a colour function such as `d3.scale.category10()`
    | ScaleTable(entries: Obj<ScaleAxis>)                       // prebuilt `{scale, axis}` pairs by field

  /** The default configuration, keys in declaration order. */
  function Defaults(): Obj<Opt> {
    [
      ("w", Number(800.0)),
      ("h", Number(600.0)),
      ("margin", Margins(20.0, 20.0, 20.0, 20.0)),
      ("labelFactor", Number(1.25)),
      ("wrapWidth", Number(60.0)),
      ("opacityArea", Number(0.35)),
      ("dotRadius", Number(4.0)),
      ("opacityCircles", Number(0.1)),
      ("strokeWidth", Number(0.7)),
      ("roundStrokes", Flag(false)),
      ("color", Palette),
      ("hover", Flag(true)),
      ("axisLabels", Flag(true)),
      ("tickLabels", Flag(true)),
      ("fields", Flag(false)),
      ("scalesAndAxes", Flag(false))
    ]
  }

  /** The caller supplied a value for `k` that is not `undefined`. */
  predicate Supplied(options: Obj<Opt>, k: string) {
    Get(options, k).Some? && !Get(options, k).value.Undefined?
  }

  /** The `for (var i in options)` loop: copy every option whose value is not `undefined`. */
  function Merge(cfg: Obj<Opt>, options: Obj<Opt>): Obj<Opt>
    decreases |options|
  {
    if |options| == 0 then cfg
    else
      var (k, v) := options[0];
      Merge(if v.Undefined? then cfg else Put(cfg, k, v), options[1..])
  }

  /** A supplied option replaces the default; any other key reads as in `cfg`. */
  lemma {:induction false} MergeReads(cfg: Obj<Opt>, options: Obj<Opt>, k: string)
    requires WellFormed(options)
    ensures Get(Merge(cfg, options), k) == if Supplied(options, k) then Get(options, k) else Get(cfg, k)
    decreases |options|
  {
    if |options| > 0 {
      var (k0, v0) := options[0];
      var rest := options[1..];
      var cfg' := if v0.Undefined? then cfg else Put(cfg, k0, v0);
      assert [options[0]] + rest == options;
      ConsKeys(options[0], rest);
      ConsGet(options[0], rest, k);
      assert WellFormed(rest) by {
        assert Keys(rest) == Keys(options)[1..];
      }
      assert k0 !in Keys(rest) by {
        assert forall i | 0 < i < |options| :: Keys(options)[i] != Keys(options)[0];
      }
      MergeReads(cfg', rest, k);
      if !v0.Undefined? {
        if k == k0 {
          PutReads(cfg, k0, v0);
        } else {
          PutKeepsOthers(cfg, k0, v0, k);
        }
      }
    }
  }

  /** Merging never removes or reorders a key: the old keys are a prefix of the new ones. */
  lemma {:induction false} MergeKeepsKeys(cfg: Obj<Opt>, options: Obj<Opt>)
    ensures Keys(cfg) <= Keys(Merge(cfg, options))
    decreases |options|
  {
    if |options| > 0 {
      var (k0, v0) := options[0];
      var cfg' := if v0.Undefined? then cfg else Put(cfg, k0, v0);
      if !v0.Undefined? {
        PutKeys(cfg, k0, v0);
      }
      MergeKeepsKeys(cfg', options[1..]);
    }
  }

  /**
   * A supplied option replaces the default, every other key keeps its
   * default, and no key is removed or moved.
   */
  lemma MergeOverwrites(cfg: Obj<Opt>, options: Obj<Opt>)
    requires WellFormed(options)
    ensures forall k | Supplied(options, k) :: Get(Merge(cfg, options), k) == Get(options, k)
    ensures forall k | !Supplied(options, k) :: Get(Merge(cfg, options), k) == Get(cfg, k)
    ensures Keys(cfg) <= Keys(Merge(cfg, options))
  {
    forall k
      ensures Get(Merge(cfg, options), k) == if Supplied(options, k) then Get(options, k) else Get(cfg, k)
    {
      MergeReads(cfg, options, k);
    }
    MergeKeepsKeys(cfg, options);
  }

  /** `cfg` after merging the caller's options, if any, over the defaults. */
  function Configure(options: Option<Obj<Opt>>): Obj<Opt> {
    match options
    case None => Defaults()
    case Some(o) => Merge(Defaults(), o)
  }

  /** Every default key stays, and each one holds the caller's value if one was supplied. */
  lemma ConfigureKeepsEveryDefault(options: Option<Obj<Opt>>, i: nat)
    requires options.Some? ==> WellFormed(options.value)
    requires i < |Defaults()|
    ensures Defaults()[i].0 in Keys(Configure(options))
    ensures Get(Configure(options), Defaults()[i].0) ==
              if options.Some? && Supplied(options.value, Defaults()[i].0) then Get(options.value, Defaults()[i].0)
              else Get(Defaults(), Defaults()[i].0)
  {
    var k := Defaults()[i].0;
    assert k in Keys(Defaults());
    if options.Some? {
      MergeReads(Defaults(), options.value, k);
      MergeKeepsKeys(Defaults(), options.value);
      assert Keys(Defaults()) <= Keys(Configure(options));
    }
  }

  // ---------------------------------------------------------------------
  // JavaScript's `x == false`, used by `cfg.fields != false`.
  // ---------------------------------------------------------------------

  /** StrWhiteSpaceChar of ECMAScript: white space and line terminators. */
  predicate IsSpace(c: char) {
    || c == ' ' || c == '\t' || c == '\n' || c == '\r' || c == '\U{000B}' || c == '\U{000C}'
    || c == '\U{00A0}' || c == '\U{FEFF}' || c == '\U{1680}' || ('\U{2000}' <= c <= '\U{200A}')
    || c == '\U{2028}' || c == '\U{2029}' || c == '\U{202F}' || c == '\U{205F}' || c == '\U{3000}'
  }

  /** The text without leading and trailing white space. */
  function Trim(s: string): (t: string)
    ensures |t| <= |s|
    ensures |t| > 0 ==> !IsSpace(t[0]) && !IsSpace(t[|t| - 1])
    decreases |s|
  {
    if |s| == 0 then s
    else if IsSpace(s[0]) then Trim(s[1..])
    else if IsSpace(s[|s| - 1]) then Trim(s[..|s| - 1])
    else s
  }

  predicate IsDigit(c: char) {
    '0' <= c <= '9'
  }

  /** Index of the first `e` or `E`, or `|s|` when there is none. */
  function ExponentMark(s: string): (i: nat)
    ensures i <= |s|
    ensures forall j | 0 <= j < i :: s[j] != 'e' && s[j] != 'E'
    ensures i < |s| ==> s[i] == 'e' || s[i] == 'E'
  {
    if |s| == 0 then 0
    else if s[0] == 'e' || s[0] == 'E' then 0
    else 1 + ExponentMark(s[1..])
  }

  /** Digits with at most one decimal point, at least one digit, all digits zero. */
  predicate ZeroMantissa(m: string) {
    && (forall i | 0 <= i < |m| :: m[i] == '0' || m[i] == '.')
    && (forall i, j | 0 <= i < j < |m| :: m[i] != '.' || m[j] != '.')
    && '0' in m
  }

  /** An optionally signed, non-empty run of decimal digits. */
  predicate ExponentDigits(e: string) {
    var d := if |e| > 0 && (e[0] == '+' || e[0] == '-') then e[1..] else e;
    |d| > 0 && forall i | 0 <= i < |d| :: IsDigit(d[i])
  }

  /** A StrDecimalLiteral, optionally signed, whose value is zero. */
  predicate DecimalZero(t: string) {
    var u := if |t| > 0 && (t[0] == '+' || t[0] == '-') then t[1..] else t;
    var p := ExponentMark(u);
    ZeroMantissa(u[..p]) && (p == |u| || ExponentDigits(u[p + 1..]))
  }

  /** `0x0…`, `0o0…` or `0b0…`: a non-decimal literal of value zero. */
  predicate PrefixedZero(t: string) {
    && |t| >= 3 && t[0] == '0'
    && (t[1] == 'x' || t[1] == 'X' || t[1] == 'o' || t[1] == 'O' || t[1] == 'b' || t[1] == 'B')
    && forall i | 2 <= i < |t| :: t[i] == '0'
  }

  /** `Number(s) == 0`: blank text, or a numeric literal whose exact value is zero. */
  predicate TextIsZero(s: string) {
    var t := Trim(s);
    |t| == 0 || DecimalZero(t) || PrefixedZero(t)
  }

  /**
   * `o == false` under JavaScript's abstract equality: `false` itself, the
   * number zero, text that reads as zero, and an array whose joined text
   * reads as zero (an empty array, or a single name such as "0" or "").
   * `undefined`, objects and functions are never equal to `false`.
   */
  predicate LooselyFalse(o: Opt) {
    match o
    case Flag(b) => !b
    case Number(n) => n == 0.0
    case StringOpt(s) => TextIsZero(s)
    case FieldList(names) => |names| == 0 || (|names| == 1 && TextIsZero(names[0]))
    case _ => false
  }

  /** An empty array and the arrays `[""]` and `["0"]` equal `false`, so they fall back to every field. */
  lemma ZeroLikeFieldListsEqualFalse()
    ensures LooselyFalse(FieldList([]))
    ensures LooselyFalse(FieldList([""]))
    ensures LooselyFalse(FieldList(["0"]))
  {
    assert Trim("0") == "0";
    assert ExponentMark("0") == 1;
  }

  /** A single ordinary field name, or two names, do not equal `false`. */
  lemma NamedFieldListsDifferFromFalse()
    ensures !LooselyFalse(FieldList(["a"]))
    ensures !LooselyFalse(FieldList(["0", "1"]))
  {
    assert Trim("a") == "a";
    assert ExponentMark("a") == 1;
  }
}

=== FILE: distinct.dfy ===
/**
 * Duplicate removal in first-occurrence order: what `d3.map(...).keys()`
 * yields for the values of a column, and the key order of an object that
 * is filled by assigning keys one after another.
 */
module Distinct {

  predicate NoDup<T(==)>(xs: seq<T>) {
    forall i, j | 0 <= i < j < |xs| :: xs[i] != xs[j]
  }

  /** Position of the first occurrence of `x` in `xs`. */
  function FirstIndex<T(==)>(xs: seq<T>, x: T): (k: nat)
    requires x in xs
    ensures k < |xs| && xs[k] == x && x !in xs[..k]
  {
    if xs[0] == x then 0
    else
      var k' := FirstIndex(xs[1..], x);
      assert xs[..k' + 1] == [xs[0]] + xs[1..][..k'];
      1 + k'
  }

  /** The first occurrence is the only position holding `x` with no `x` before it. */
  lemma FirstIndexUnique<T>(xs: seq<T>, x: T, k: nat)
    requires k < |xs| && xs[k] == x && x !in xs[..k]
    ensures FirstIndex(xs, x) == k
  {
  }

  /** Taking a longer sequence does not move a first occurrence inside a prefix. */
  lemma FirstIndexInPrefix<T>(xs: seq<T>, m: nat, x: T)
    requires m <= |xs| && x in xs[..m]
    ensures FirstIndex(xs, x) == FirstIndex(xs[..m], x)
  {
    var k := FirstIndex(xs[..m], x);
    assert xs[..m][..k] == xs[..k];
    FirstIndexUnique(xs, x, k);
  }

  /** The distinct elements of `xs`, each kept at its first occurrence. */
  function Unique<T(==)>(xs: seq<T>): (u: seq<T>)
    ensures NoDup(u)
    ensures forall x | x in u :: x in xs
    ensures forall x | x in xs :: x in u
    ensures |u| <= |xs|
  {
    if |xs| == 0 then []
    else
      var init, last := xs[..|xs| - 1], xs[|xs| - 1];
      assert xs == init + [last];
      var u := Unique(init);
      if last in u then u else u + [last]
  }

  /** Appending one element: it is kept exactly when it is new. */
  lemma UniqueSnoc<T>(xs: seq<T>, x: T)
    ensures Unique(xs + [x]) == if x in xs then Unique(xs) else Unique(xs) + [x]
  {
    assert (xs + [x])[..|xs|] == xs;
  }

  /**
   * The output is ordered by first occurrence in the input. Together with
   * the membership and no-duplicates clauses of `Unique` this pins the
   * output down completely.
   */
  lemma {:induction false} UniqueKeepsFirstOccurrenceOrder<T>(xs: seq<T>)
    ensures forall i, j | 0 <= i < j < |Unique(xs)| ::
              FirstIndex(xs, Unique(xs)[i]) < FirstIndex(xs, Unique(xs)[j])
  {
    if |xs| > 0 {
      var n := |xs|;
      var init, last := xs[..n - 1], xs[n - 1];
      assert xs == init + [last];
      var u0 := Unique(init);
      UniqueKeepsFirstOccurrenceOrder(init);
      forall y | y in init
        ensures FirstIndex(xs, y) == FirstIndex(init, y)
      {
        FirstIndexInPrefix(xs, n - 1, y);
      }
      if last !in u0 {
        assert last !in init;
        assert xs[..n - 1] == init;
        FirstIndexUnique(xs, last, n - 1);
        var u := Unique(xs);
        assert u == u0 + [last];
        forall i, j | 0 <= i < j < |u|
          ensures FirstIndex(xs, u[i]) < FirstIndex(xs, u[j])
        {
          if j == |u| - 1 {
            assert u[i] in init;
          } else {
            assert u[i] == u0[i] && u[j] == u0[j];
          }
        }
      }
    }
  }

  /** A duplicate-free input is its own deduplication. */
  lemma {:induction false} UniqueOfDistinct<T>(xs: seq<T>)
    requires NoDup(xs)
    ensures Unique(xs) == xs
  {
    if |xs| > 0 {
      var init, last := xs[..|xs| - 1], xs[|xs| - 1];
      assert xs == init + [last];
      UniqueOfDistinct(init);
      assert forall k | 0 <= k < |init| :: init[k] == xs[k] != last;
    }
  }

  /** A fresh element in front stays in front and leaves the rest unchanged. */
  lemma {:induction false} UniqueConsFresh<T>(x: T, xs: seq<T>)
    requires x !in xs
    ensures Unique([x] + xs) == [x] + Unique(xs)
  {
    if |xs| > 0 {
      var init, last := xs[..|xs| - 1], xs[|xs| - 1];
      assert xs == init + [last];
      assert ([x] + xs)[..|[x] + xs| - 1] == [x] + init;
      UniqueConsFresh(x, init);
    }
  }

  /** The first element of a non-empty input is the first element of the output. */
  lemma {:induction false} UniqueHead<T>(xs: seq<T>)
    requires |xs| > 0
    ensures |Unique(xs)| > 0 && Unique(xs)[0] == xs[0]
  {
    if |xs| > 1 {
      var init := xs[..|xs| - 1];
      UniqueHead(init);
    }
  }

  /**
   * The insertion loop behind `d3.map(...).keys()`: walk the values once,
   * remembering the ones already seen, and append each new one.
   */
  method DistinctInOrder<T(==)>(xs: seq<T>) returns (u: seq<T>)
    ensures u == Unique(xs)
  {
    u := [];
    var seen: set<T> := {};
    for i := 0 to |xs|
      invariant u == Unique(xs[..i])
      invariant forall x :: x in seen <==> x in u
    {
      assert xs[..i + 1] == xs[..i] + [xs[i]];
      UniqueSnoc(xs[..i], xs[i]);
      if xs[i] !in seen {
        u := u + [xs[i]];
        seen := seen + {xs[i]};
      }
    }
    assert xs[..|xs|] == xs;
  }
}

=== FILE: inference.dfy ===
/**
 * `autoScalesAxes`: for every field of the first record, read the column,
 * decide between an ordinal and a linear scale from its first value, and
 * build the scale and its axis.
 */
module Inference {
  import opened Wrappers
  import opened Distinct
  import opened JsObject
  import opened Values
  import opened Projection
  import opened Scales
  import opened Axes

  datatype Kind = Categorical | Numeric

  /** `typeof axisData[0]` is "string" or "boolean": only the first value is looked at. */
  function Classify(column: seq<Value>): (k: Kind)
    ensures k == Categorical <==> |column| > 0 && (column[0].Str? || column[0].Bool?)
  {
    if |column| > 0 && (column[0].Str? || column[0].Bool?) then Categorical else Numeric
  }

  /** Replacing every value after the first never changes the classification. */
  lemma ClassifyIgnoresLaterValues(column: seq<Value>, later: seq<Value>)
    requires |column| > 0
    ensures Classify([column[0]] + later) == Classify(column)
  {
  }

  /** The blank entry put in front of every ordinal domain, so no category sits at the centre. */
  const Placeholder: string := "  "

  /** The text of each value of a column, the keys d3 groups the values by. */
  function Texts(column: seq<Value>, show: NumberFormat): (ts: seq<string>)
    ensures |ts| == |column|
    ensures forall j | 0 <= j < |column| :: ts[j] == Text(column[j], show)
  {
    seq(|column|, j requires 0 <= j < |column| => Text(column[j], show))
  }

  /** `uniqueValues` after `unshift("  ")`: the tick values of an ordinal axis. */
  function OrdinalTicks(column: seq<Value>, show: NumberFormat): (ticks: seq<string>)
    ensures |ticks| > 0 && ticks[0] == Placeholder
    ensures ticks[1..] == Unique(Texts(column, show))
  {
    [Placeholder] + Unique(Texts(column, show))
  }

  /**
   * The domain of the ordinal scale: d3's `domain()` drops repeated entries
   * of the tick values.
   */
  function OrdinalDomain(column: seq<Value>, show: NumberFormat): seq<string> {
    Unique(OrdinalTicks(column, show))
  }

  /**
   * The placeholder is the first domain entry and the distinct texts of the
   * column follow in first-occurrence order; a text equal to the placeholder
   * merges with it.
   */
  lemma OrdinalDomainShape(column: seq<Value>, show: NumberFormat)
    ensures var domain := OrdinalDomain(column, show);
            && NoDup(domain)
            && |domain| > 0 && domain[0] == Placeholder
            && (forall s | s in domain :: s == Placeholder || s in Texts(column, show))
            && (forall j | 0 <= j < |column| :: Text(column[j], show) in domain)
    ensures Placeholder !in Texts(column, show) ==>
              OrdinalDomain(column, show) == [Placeholder] + Unique(Texts(column, show))
              && |OrdinalDomain(column, show)| == |Unique(Texts(column, show))| + 1
    ensures Placeholder in Texts(column, show) ==>
              |OrdinalDomain(column, show)| == |Unique(Texts(column, show))|
  {
    var ts := Texts(column, show);
    var ticks := OrdinalTicks(column, show);
    UniqueHead(ticks);
    assert forall j | 0 <= j < |column| :: ts[j] in ts;
    if Placeholder !in ts {
      UniqueConsFresh(Placeholder, Unique(ts));
      UniqueOfDistinct(Unique(ts));
    } else {
      PlaceholderMerges(ts);
    }
  }

  /** A text equal to the placeholder adds nothing to the domain. */
  lemma PlaceholderMerges(ts: seq<string>)
    requires Placeholder in ts
    ensures |Unique([Placeholder] + Unique(ts))| == |Unique(ts)|
  {
    var u := Unique(ts);
    var d := Unique([Placeholder] + u);
    UniqueHead([Placeholder] + u);
    SameElementsSameSize(d, u);
  }

  /** Two duplicate-free sequences with the same elements have the same length. */
  lemma SameElementsSameSize(a: seq<string>, b: seq<string>)
    requires NoDup(a) && NoDup(b)
    requires forall s | s in a :: s in b
    requires forall s | s in b :: s in a
    ensures |a| == |b|
  {
    DistinctSize(a);
    DistinctSize(b);
    assert (set s | s in a) == (set s | s in b);
  }

  /** A duplicate-free sequence has as many elements as its set of elements. */
  lemma {:induction false} DistinctSize(a: seq<string>)
    requires NoDup(a)
    ensures |set s | s in a| == |a|
  {
    if |a| > 0 {
      var init := a[..|a| - 1];
      DistinctSize(init);
      assert a == init + [a[|a| - 1]];
      assert (set s | s in a) == (set s | s in init) + {a[|a| - 1]};
    }
  }

  /**
   * `d3.extent`: the least and greatest number of a column, skipping
   * `undefined`; `None` when the column holds no number at all.
   */
  function Extent(column: seq<Value>): (e: Option<(real, real)>)
    ensures e.None? <==> forall j | 0 <= j < |column| :: AsNumber(column[j]).None?
    ensures e.Some? ==> e.value.0 <= e.value.1
    ensures e.Some? ==> forall j | 0 <= j < |column| && AsNumber(column[j]).Some? ::
                          e.value.0 <= AsNumber(column[j]).value <= e.value.1
    ensures e.Some? ==> exists j | 0 <= j < |column| :: AsNumber(column[j]) == Some(e.value.0)
    ensures e.Some? ==> exists j | 0 <= j < |column| :: AsNumber(column[j]) == Some(e.value.1)
  {
    if |column| == 0 then None
    else
      var n := |column|;
      var init := column[..n - 1];
      assert forall j | 0 <= j < n - 1 :: init[j] == column[j];
      var before := Extent(init);
      match AsNumber(column[n - 1])
      case None => before
      case Some(x) =>
        match before
        case None => Some((x, x))
        case Some((lo, hi)) =>
          Some((if x < lo then x else lo, if hi < x then x else hi))
  }

  /** `autos[k]` for a column: an ordinal scale and axis, or a linear scale with the numeric tick formatter. */
  function AutoScaleAxis(column: seq<Value>, show: NumberFormat): (sa: ScaleAxis)
    ensures Classify(column) == Categorical ==>
              sa == ScaleAxis(Ordinal(OrdinalDomain(column, show)),
                              Axis(Some(OrdinalTicks(column, show)), Identity))
    ensures Classify(column) == Numeric ==> sa.axis == Axis(None, HideFirst)
    ensures Classify(column) == Numeric ==>
              match Extent(column)
              case None => sa.scale == LinearUnset
              case Some((lo, hi)) => sa.scale == Linear(lo, hi)
  {
    match Classify(column)
    case Categorical =>
      ScaleAxis(Ordinal(OrdinalDomain(column, show)), Axis(Some(OrdinalTicks(column, show)), Identity))
    case Numeric =>
      var scale := match Extent(column)
        case None => LinearUnset
        case Some((lo, hi)) => Linear(lo, hi);
      ScaleAxis(scale, Axis(None, HideFirst))
  }

  /** One `{scale, axis}` entry per key, in key order. */
  function Table(data: seq<Record>, keys: seq<string>, show: NumberFormat): (t: Obj<ScaleAxis>)
    ensures Keys(t) == keys
    ensures forall k | k in keys :: Get(t, k) == Some(AutoScaleAxis(Column(data, k), show))
  {
    seq(|keys|, i requires 0 <= i < |keys| => (keys[i], AutoScaleAxis(Column(data, keys[i]), show)))
  }

  /** `autoScalesAxes(data)`: fails where `Object.keys(data[0])` throws on an empty dataset. */
  function AutoScalesAxes(data: seq<Record>, show: NumberFormat): (r: Result<Obj<ScaleAxis>, Error>)
    ensures r.Failure? <==> |data| == 0
    ensures r.Failure? ==> r.error == EmptyDataset
    ensures r.Success? ==> Keys(r.value) == Keys(data[0])
    ensures r.Success? ==> forall k | k in Keys(data[0]) ::
              Get(r.value, k) == Some(AutoScaleAxis(Column(data, k), show))
  {
    if |data| == 0 then Failure(EmptyDataset) else Success(Table(data, Keys(data[0]), show))
  }

  /**
   * Every value of a column the scale was built from lands between the
   * centre and the outer circle: all values of a categorical column, and
   * every number (or boolean) of a numeric column; anything else in a
   * numeric column scales to NaN.
   */
  lemma {:induction false} AutoScaleCoversColumn(column: seq<Value>, radius: real, show: NumberFormat, j: nat)
    requires 0.0 <= radius && j < |column|
    ensures Classify(column) == Categorical || AsNumber(column[j]).Some? ==>
              && Apply(AutoScaleAxis(column, show).scale, radius, column[j], show).At?
              && 0.0 <= Apply(AutoScaleAxis(column, show).scale, radius, column[j], show).r <= radius
    ensures Classify(column) == Numeric && AsNumber(column[j]).None? ==>
              Apply(AutoScaleAxis(column, show).scale, radius, column[j], show) == NaN
  {
    var v := column[j];
    if Classify(column) == Categorical {
      OrdinalDomainShape(column, show);
      OrdinalWithinRange(OrdinalDomain(column, show), radius, v, show);
    } else if AsNumber(v).Some? {
      var e := Extent(column);
      LinearWithinRange(e.value.0, e.value.1, radius, v, show);
    }
  }

  /** In a categorical column's scale the placeholder is at the centre and the last distinct value on the outer circle. */
  lemma AutoOrdinalSpansRange(column: seq<Value>, radius: real, show: NumberFormat)
    requires Classify(column) == Categorical
    requires Placeholder !in Texts(column, show)
    ensures Apply(AutoScaleAxis(column, show).scale, radius, Str(Placeholder), show) == At(0.0)
    ensures var d := OrdinalDomain(column, show);
            |d| >= 2 && Apply(AutoScaleAxis(column, show).scale, radius, Str(d[|d| - 1]), show) == At(radius)
  {
    var ts := Texts(column, show);
    assert ts[0] in Unique(ts);
    OrdinalDomainShape(column, show);
    OrdinalSpansRange(OrdinalDomain(column, show), radius, show);
  }

  /** Repeating a value does not repeat it among the distinct texts. */
  lemma UniqueLowHighLow()
    ensures Unique(["low", "high", "low"]) == ["low", "high"]
  {
    assert "low" != "high" by { assert "low"[0] != "high"[0]; }
    RepeatAfterOtherDropped("low", "high");
  }

  /** Of `a, b, a` only `a` and `b` remain. */
  lemma {:induction false} RepeatAfterOtherDropped<T>(a: T, b: T)
    requires a != b
    ensures Unique([a, b, a]) == [a, b]
  {
    var ts := [a, b, a];
    assert ts[..1] == [a];
    assert Unique(ts[..1]) == [a] by { UniqueOfDistinct(ts[..1]); }
    UniqueSnoc(ts[..1], b);
    assert ts[..2] == ts[..1] + [b];
    assert ts == ts[..2] + [a];
    UniqueSnoc(ts[..2], a);
  }

  /** The values "low", "high", "low" give the domain `["  ", "low", "high"]`. */
  lemma LowHighDomainExample(show: NumberFormat)
    ensures OrdinalDomain([Str("low"), Str("high"), Str("low")], show) == [Placeholder, "low", "high"]
  {
    var column := [Str("low"), Str("high"), Str("low")];
    assert Texts(column, show) == ["low", "high", "low"];
    UniqueLowHighLow();
    var ticks := [Placeholder, "low", "high"];
    assert OrdinalTicks(column, show) == ticks;
    assert ticks[0] != ticks[1] by { assert ticks[0][0] != ticks[1][0]; }
    assert ticks[0] != ticks[2] by { assert ticks[0][0] != ticks[2][0]; }
    assert ticks[1] != ticks[2] by { assert ticks[1][0] != ticks[2][0]; }
    UniqueOfDistinct(ticks);
  }

  /** In that domain "high" is the last of three points, on the outer circle. */
  lemma LowHighPlacementExample(radius: real, show: NumberFormat)
    ensures Apply(Ordinal([Placeholder, "low", "high"]), radius, Str("high"), show) == At(radius)
  {
    var d := [Placeholder, "low", "high"];
    assert d[0] != d[1] by { assert d[0][0] != d[1][0]; }
    assert d[0] != d[2] by { assert d[0][0] != d[2][0]; }
    assert d[1] != d[2] by { assert d[1][0] != d[2][0]; }
    OrdinalAt(d, radius, 2, show);
  }

  /** A column of 0 and 5 gets the domain `[0, 5]`; 0 sits at the centre and 5 on the outer circle. */
  lemma ZeroFiveExample(radius: real, show: NumberFormat)
    ensures AutoScaleAxis([Num(0.0), Num(5.0)], show).scale == Linear(0.0, 5.0)
    ensures Apply(Linear(0.0, 5.0), radius, Num(0.0), show) == At(0.0)
    ensures Apply(Linear(0.0, 5.0), radius, Num(5.0), show) == At(radius)
  {
    var column := [Num(0.0), Num(5.0)];
    assert column[..1] == [Num(0.0)];
    assert Extent(column[..1]) == Some((0.0, 0.0));
    assert Extent(column) == Some((0.0, 5.0));
  }
}

=== FILE: jsobject.dfy ===
/**
 * JavaScript objects as the chart code uses them: string keys in insertion
 * order, each bound to a value. Reading a key, assigning a key (which
 * overwrites in place or appends at the end) and listing the keys are the
 * only operations the chart needs.
 */
module JsObject {
  import opened Wrappers
  import opened Distinct

  type Obj<V> = seq<(string, V)>

  /** `Object.keys(o)`: the keys in insertion order. */
  function Keys<V>(o: Obj<V>): (ks: seq<string>)
    ensures |ks| == |o|
    ensures forall i | 0 <= i < |o| :: ks[i] == o[i].0
  {
    if |o| == 0 then [] else [o[0].0] + Keys(o[1..])
  }

  /** A real JavaScript object never binds one key twice. */
  predicate WellFormed<V>(o: Obj<V>) {
    NoDup(Keys(o))
  }

  /** `o[k]`, with `None` for a key the object does not have. */
  function Get<V>(o: Obj<V>, k: string): (r: Option<V>)
    ensures r.Some? <==> k in Keys(o)
    ensures r.Some? ==> (k, r.value) in o
  {
    if |o| == 0 then None
    else if o[0].0 == k then Some(o[0].1)
    else
      assert Keys(o) == [o[0].0] + Keys(o[1..]);
      Get(o[1..], k)
  }

  /** `o[k] = v`. */
  function Put<V>(o: Obj<V>, k: string, v: V): Obj<V> {
    if |o| == 0 then [(k, v)]
    else if o[0].0 == k then [(k, v)] + o[1..]
    else [o[0]] + Put(o[1..], k, v)
  }

  /** After `o[k] = v`, `k` reads `v`. */
  lemma {:induction false} PutReads<V>(o: Obj<V>, k: string, v: V)
    ensures Get(Put(o, k, v), k) == Some(v)
  {
    if |o| > 0 && o[0].0 != k {
      PutReads(o[1..], k, v);
      ConsGet(o[0], Put(o[1..], k, v), k);
    }
  }

  /** After `o[k] = v`, every other key reads as before. */
  lemma {:induction false} PutKeepsOthers<V>(o: Obj<V>, k: string, v: V, k': string)
    requires k' != k
    ensures Get(Put(o, k, v), k') == Get(o, k')
  {
    if |o| > 0 {
      ConsGet(o[0], o[1..], k');
      assert [o[0]] + o[1..] == o;
      if o[0].0 == k {
        ConsGet((k, v), o[1..], k');
      } else {
        PutKeepsOthers(o[1..], k, v, k');
        ConsGet(o[0], Put(o[1..], k, v), k');
      }
    }
  }

  /** After `o[k] = v`, an existing key keeps its position and a new key goes last. */
  lemma {:induction false} PutKeys<V>(o: Obj<V>, k: string, v: V)
    ensures Keys(Put(o, k, v)) == if k in Keys(o) then Keys(o) else Keys(o) + [k]
  {
    if |o| > 0 {
      ConsKeys(o[0], o[1..]);
      assert [o[0]] + o[1..] == o;
      if o[0].0 == k {
        ConsKeys((k, v), o[1..]);
      } else {
        PutKeys(o[1..], k, v);
        ConsKeys(o[0], Put(o[1..], k, v));
      }
    }
  }

  /** The keys of an object with one more entry in front. */
  lemma ConsKeys<V>(e: (string, V), o: Obj<V>)
    ensures Keys([e] + o) == [e.0] + Keys(o)
  {
    assert ([e] + o)[1..] == o;
  }

  /** A lookup in an object with one more entry in front. */
  lemma ConsGet<V>(e: (string, V), o: Obj<V>, k: string)
    ensures Get([e] + o, k) == if e.0 == k then Some(e.1) else Get(o, k)
  {
    assert ([e] + o)[1..] == o;
  }

  /** Reading the key at position `i` finds the value there when no earlier entry has that key. */
  lemma {:induction false} GetAt<V>(o: Obj<V>, i: nat)
    requires i < |o|
    requires forall i' | 0 <= i' < i :: o[i'].0 != o[i].0
    ensures Get(o, o[i].0) == Some(o[i].1)
  {
    if i > 0 {
      GetAt(o[1..], i - 1);
    }
  }
}

=== FILE: layout.dfy ===
/**
 * The polar layout: the radius of the outermost circle, the angle between
 * neighbouring axes, and each record's blob as one vertex per axis. Angles
 * are fractions of a full turn (a turn is 2π radians), so vertex `i` of
 * `total` sits at `i / total` of a turn.
 */
module Layout {
  import opened Values
  import opened Scales
  import opened Projection

  /** `Math.min(w / 2, h / 2)`. */
  function Radius(w: real, h: real): (r: real)
    ensures r <= w / 2.0 && r <= h / 2.0
    ensures r == w / 2.0 || r == h / 2.0
  {
    if w / 2.0 <= h / 2.0 then w / 2.0 else h / 2.0
  }

  /** `2π / total` as a fraction of a turn; JavaScript's `Infinity` when there are no axes. */
  datatype Slice = Turns(t: real) | Unbounded

  function AngleSlice(total: nat): (a: Slice)
    ensures a.Unbounded? <==> total == 0
    ensures total > 0 ==> total as real * a.t == 1.0
  {
    if total == 0 then Unbounded else Turns(1.0 / total as real)
  }

  /** `i * angleSlice`: where axis `i` of `total` points, as a fraction of a turn. */
  function VertexTurn(i: nat, total: nat): (t: real)
    requires i < total
    ensures 0.0 <= t < 1.0
    ensures t * total as real == i as real
  {
    var slice := AngleSlice(total).t;
    assert i as real * slice * total as real == i as real * (slice * total as real);
    i as real * slice
  }

  /** Axes are spread at equal angles in increasing order around the full turn. */
  lemma AxesEquallySpaced(i: nat, j: nat, total: nat)
    requires i < j < total
    ensures VertexTurn(i, total) < VertexTurn(j, total)
    ensures VertexTurn(j, total) - VertexTurn(i, total) == (j - i) as real * AngleSlice(total).t
  {
    var s := AngleSlice(total).t;
    assert s > 0.0;
    assert (j - i) as real * s == j as real * s - i as real * s;
  }

  /** One vertex of a blob: the axis's direction and the scaled value along it. */
  datatype Vertex = Vertex(turn: real, radius: Scaled)

  /** The radial line of one reshaped row: vertex `i` applies scale `i` to entry `i`. */
  function Blob(row: seq<Entry>, scales: seq<Scale>, radius: real, show: NumberFormat): (b: seq<Vertex>)
    requires |row| == |scales|
    ensures |b| == |row|
    ensures forall i | 0 <= i < |row| ::
              b[i] == Vertex(VertexTurn(i, |row|), Apply(scales[i], radius, row[i].value, show))
  {
    seq(|row|, i requires 0 <= i < |row| =>
      Vertex(VertexTurn(i, |row|), Apply(scales[i], radius, row[i].value, show)))
  }

  /**
   * A blob goes once round the circle: its vertices point in increasing
   * directions within one turn, one slice apart.
   */
  lemma BlobGoesRound(row: seq<Entry>, scales: seq<Scale>, radius: real, show: NumberFormat, i: nat, j: nat)
    requires |row| == |scales| && i < j < |row|
    ensures var b := Blob(row, scales, radius, show);
            && 0.0 <= b[i].turn < b[j].turn < 1.0
            && b[j].turn - b[i].turn == (j - i) as real * AngleSlice(|row|).t
  {
    AxesEquallySpaced(i, j, |row|);
  }

  /**
   * The path the `linear-closed` interpolation draws: every vertex in axis
   * order, then back to the first one.
   */
  function Outline(blob: seq<Vertex>): (path: seq<Vertex>)
    ensures |blob| == 0 ==> path == []
    ensures |blob| > 0 ==> |path| == |blob| + 1 && path[..|blob|] == blob && path[|blob|] == blob[0]
  {
    if |blob| == 0 then [] else blob + [blob[0]]
  }
}

=== FILE: projection.dfy ===
/**
 * Records, the columns read from them, `subsetAndSortData`, and the
 * reshaping of every record into an ordered row of `{axis, value}` entries.
 */
module Projection {
  import opened Wrappers
  import opened Distinct
  import opened JsObject
  import opened Values

  /** One datum: field names bound to raw values, in the record's key order. */
  type Record = Obj<Value>

  /** `row[k]`: a missing key reads as `undefined`. */
  function Field(row: Record, k: string): Value {
    match Get(row, k)
    case Some(v) => v
    case None => Undef
  }

  /** `data.map(row => row[k])`: the values of one field, one per record. */
  function Column(data: seq<Record>, k: string): (c: seq<Value>)
    ensures |c| == |data|
    ensures forall j | 0 <= j < |data| :: c[j] == Field(data[j], k)
  {
    seq(|data|, j requires 0 <= j < |data| => Field(data[j], k))
  }

  /**
   * The new row built by assigning `newRow[key] = row[key]` for each
   * configured key in turn.
   */
  function Project(row: Record, fields: seq<string>): Record {
    if |fields| == 0 then []
    else Put(Project(row, fields[..|fields| - 1]), fields[|fields| - 1], Field(row, fields[|fields| - 1]))
  }

  /** The new row's keys are the configured keys in order, a repeated key kept at its first position. */
  lemma {:induction false} ProjectKeys(row: Record, fields: seq<string>)
    ensures Keys(Project(row, fields)) == Unique(fields)
  {
    if |fields| > 0 {
      var init, k := fields[..|fields| - 1], fields[|fields| - 1];
      assert fields == init + [k];
      ProjectKeys(row, init);
      UniqueSnoc(init, k);
      PutKeys(Project(row, init), k, Field(row, k));
    }
  }

  /**
   * A configured key reads the value the original row has for it (a key
   * absent from `row` is still created, bound to `undefined`); any other
   * key is absent.
   */
  lemma {:induction false} ProjectReads(row: Record, fields: seq<string>, k: string)
    ensures Get(Project(row, fields), k) == if k in fields then Some(Field(row, k)) else None
  {
    if |fields| > 0 {
      var init, last := fields[..|fields| - 1], fields[|fields| - 1];
      assert fields == init + [last];
      if k == last {
        PutReads(Project(row, init), last, Field(row, last));
      } else {
        ProjectReads(row, init, k);
        PutKeepsOthers(Project(row, init), last, Field(row, last), k);
      }
    }
  }

  /** `subsetAndSortData(data, fields)`: every record projected onto the configured keys. */
  function SubsetAndSort(data: seq<Record>, fields: seq<string>): (out: seq<Record>)
    ensures |out| == |data|
    ensures forall j | 0 <= j < |data| :: out[j] == Project(data[j], fields)
  {
    seq(|data|, j requires 0 <= j < |data| => Project(data[j], fields))
  }

  /**
   * `subsetAndSortData` keeps the number of records; each output row has
   * exactly the configured keys, in configured order, bound to the values
   * of the input row.
   */
  lemma SubsetAndSortRows(data: seq<Record>, fields: seq<string>)
    ensures |SubsetAndSort(data, fields)| == |data|
    ensures forall j | 0 <= j < |data| :: Keys(SubsetAndSort(data, fields)[j]) == Unique(fields)
    ensures forall j, k | 0 <= j < |data| ::
              Get(SubsetAndSort(data, fields)[j], k) == if k in fields then Some(Field(data[j], k)) else None
  {
    forall j | 0 <= j < |data|
      ensures Keys(SubsetAndSort(data, fields)[j]) == Unique(fields)
    {
      ProjectKeys(data[j], fields);
    }
    forall j, k | 0 <= j < |data|
      ensures Get(SubsetAndSort(data, fields)[j], k) == if k in fields then Some(Field(data[j], k)) else None
    {
      ProjectReads(data[j], fields, k);
    }
  }

  /** With distinct configured keys every output row has exactly those keys, in configured order. */
  lemma SubsetHasConfiguredKeys(data: seq<Record>, fields: seq<string>)
    requires NoDup(fields)
    ensures forall j | 0 <= j < |data| :: Keys(SubsetAndSort(data, fields)[j]) == fields
  {
    SubsetAndSortRows(data, fields);
    UniqueOfDistinct(fields);
  }

  /** Projection does not change any configured column. */
  lemma {:induction false} ColumnOfSubset(data: seq<Record>, fields: seq<string>, k: string)
    requires k in fields
    ensures Column(SubsetAndSort(data, fields), k) == Column(data, k)
  {
    forall j | 0 <= j < |data|
      ensures Field(SubsetAndSort(data, fields)[j], k) == Field(data[j], k)
    {
      ProjectReads(data[j], fields, k);
    }
  }

  /** One `{axis, value}` pair of a reshaped row. */
  datatype Entry = Entry(axis: string, value: Value)

  /** `row => fields.map(key => ({axis: key, value: row[key]}))`. */
  function Row(row: Record, fields: seq<string>): (r: seq<Entry>)
    ensures |r| == |fields|
    ensures forall i | 0 <= i < |fields| :: r[i].axis == fields[i] && r[i].value == Field(row, fields[i])
  {
    seq(|fields|, i requires 0 <= i < |fields| => Entry(fields[i], Field(row, fields[i])))
  }

  /** The data rearranged to an array of rows, one per record, one entry per field. */
  function Reshape(data: seq<Record>, fields: seq<string>): (rows: seq<seq<Entry>>)
    ensures |rows| == |data|
    ensures forall j | 0 <= j < |data| :: rows[j] == Row(data[j], fields)
  {
    seq(|data|, j requires 0 <= j < |data| => Row(data[j], fields))
  }

  /** Reshaping the projected data gives the same rows as reshaping the original records. */
  lemma ReshapeIgnoresSubset(data: seq<Record>, fields: seq<string>)
    ensures Reshape(SubsetAndSort(data, fields), fields) == Reshape(data, fields)
  {
    var projected := SubsetAndSort(data, fields);
    forall j | 0 <= j < |data|
      ensures Row(projected[j], fields) == Row(data[j], fields)
    {
      forall i | 0 <= i < |fields|
        ensures Field(projected[j], fields[i]) == Field(data[j], fields[i])
      {
        ProjectReads(data[j], fields, fields[i]);
      }
    }
  }
}

=== FILE: scales.dfy ===
/**
 * The two d3 scale kinds the chart builds, after their range has been set
 * to `[0, radius]`: an ordinal scale laid out with `rangePoints` and a
 * linear scale. Only the mapping from a value to a radius is modelled.
 */
module Scales {
  import opened Distinct
  import opened Values

  /**
   * `Ordinal(domain)`: the values passed to `domain()`; d3 keeps only the
   * first occurrence of each.
   * `Linear(lo, hi)`: a linear scale over the domain `[lo, hi]`.
   * `LinearUnset`: a linear scale whose domain is `[undefined, undefined]`,
   * which is what `d3.extent` returns for a column without numbers.
   */
  datatype Scale = Ordinal(domain: seq<string>) | Linear(lo: real, hi: real) | LinearUnset

  /** A scaled radius; `NaN` where d3 yields NaN (or `undefined`) instead of a number. */
  datatype Scaled = At(r: real) | NaN

  /**
   * Position `k` of `n` points spread by `rangePoints([0, radius])`: evenly
   * from 0 to `radius`, or the midpoint when there are fewer than two.
   */
  function Point(n: nat, k: nat, radius: real): real {
    if n < 2 then radius / 2.0 else k as real * (radius / (n - 1) as real)
  }

  /** `scale(v)` once the scale's range is `[0, radius]`. */
  function Apply(s: Scale, radius: real, v: Value, show: NumberFormat): (r: Scaled)
    ensures s.Ordinal? ==> (r.At? <==> Text(v, show) in s.domain)
    ensures s.Linear? ==> (r.At? <==> AsNumber(v).Some?)
    ensures s.LinearUnset? ==> r.NaN?
  {
    match s
    case Ordinal(values) =>
      var domain := Unique(values);
      var key := Text(v, show);
      if key in domain then At(Point(|domain|, FirstIndex(domain, key), radius)) else NaN
    case Linear(lo, hi) =>
      (match AsNumber(v)
       case Some(x) => if hi - lo == 0.0 then At(0.0) else At((x - lo) / (hi - lo) * radius)
       case None => NaN)
    case LinearUnset => NaN
  }

  /** On a domain without repeats, entry `k` is point `k` of `|domain|`. */
  lemma OrdinalAt(domain: seq<string>, radius: real, k: nat, show: NumberFormat)
    requires NoDup(domain) && k < |domain|
    ensures Apply(Ordinal(domain), radius, Str(domain[k]), show) == At(Point(|domain|, k, radius))
  {
    UniqueOfDistinct(domain);
    FirstIndexUnique(domain, domain[k], k);
  }

  /** The first domain entry sits at the centre and the last one on the outer circle. */
  lemma OrdinalSpansRange(domain: seq<string>, radius: real, show: NumberFormat)
    requires NoDup(domain) && |domain| >= 2
    ensures Apply(Ordinal(domain), radius, Str(domain[0]), show) == At(0.0)
    ensures Apply(Ordinal(domain), radius, Str(domain[|domain| - 1]), show) == At(radius)
  {
    var n := |domain|;
    OrdinalAt(domain, radius, 0, show);
    OrdinalAt(domain, radius, n - 1, show);
    assert (n - 1) as real * (radius / (n - 1) as real) == radius;
  }

  /** Neighbouring domain entries are one step of `radius / (n - 1)` apart. */
  lemma OrdinalEvenlySpaced(domain: seq<string>, radius: real, k: nat, show: NumberFormat)
    requires NoDup(domain) && k + 1 < |domain|
    ensures Apply(Ordinal(domain), radius, Str(domain[k + 1]), show).r
            - Apply(Ordinal(domain), radius, Str(domain[k]), show).r
            == radius / (|domain| - 1) as real
  {
    OrdinalAt(domain, radius, k, show);
    OrdinalAt(domain, radius, k + 1, show);
  }

  /** Every value of the domain lands between the centre and the outer circle. */
  lemma OrdinalWithinRange(domain: seq<string>, radius: real, v: Value, show: NumberFormat)
    requires 0.0 <= radius && Text(v, show) in domain
    ensures Apply(Ordinal(domain), radius, v, show).At?
    ensures 0.0 <= Apply(Ordinal(domain), radius, v, show).r <= radius
  {
    var d := Unique(domain);
    PointWithinRange(|d|, FirstIndex(d, Text(v, show)), radius);
  }

  /** Repeated domain values are dropped: the scale behaves as if each were given once. */
  lemma OrdinalIgnoresRepeats(values: seq<string>, radius: real, v: Value, show: NumberFormat)
    ensures Apply(Ordinal(values), radius, v, show) == Apply(Ordinal(Unique(values)), radius, v, show)
  {
    UniqueOfDistinct(Unique(values));
  }

  /** Of `a, a, b` only `a` and `b` remain. */
  lemma {:induction false} RepeatsDropped<T>(a: T, b: T)
    requires a != b
    ensures Unique([a, a, b]) == [a, b]
  {
    var values := [a, a, b];
    assert values[..1] == [a];
    assert Unique(values[..1]) == [a] by { UniqueOfDistinct(values[..1]); }
    assert values[..2] == values[..1] + [a];
    UniqueSnoc(values[..1], a);
    assert values == values[..2] + [b];
    UniqueSnoc(values[..2], b);
  }

  /** The domain "a", "a", "b" has two points, so "b" lands on the outer circle. */
  lemma RepeatedDomainExample(radius: real, show: NumberFormat)
    ensures Apply(Ordinal(["a", "a", "b"]), radius, Str("b"), show) == At(radius)
  {
    RepeatsDropped("a", "b");
    OrdinalIgnoresRepeats(["a", "a", "b"], radius, Str("b"), show);
    OrdinalAt(["a", "b"], radius, 1, show);
  }

  /** Each of the `n` points lies between the centre and the outer circle. */
  lemma PointWithinRange(n: nat, k: nat, radius: real)
    requires k < n && 0.0 <= radius
    ensures 0.0 <= Point(n, k, radius) <= radius
  {
    if n >= 2 {
      var step := radius / (n - 1) as real;
      assert step * (n - 1) as real == radius;
      assert 0.0 <= step;
      assert k as real <= (n - 1) as real;
      MultiplyMonotone(k as real, (n - 1) as real, step);
    }
  }

  lemma MultiplyMonotone(a: real, b: real, c: real)
    requires a <= b && 0.0 <= c
    ensures a * c <= b * c
  {
  }

  /** A linear scale sends its domain's ends to the centre and to the outer circle. */
  lemma LinearSpansRange(lo: real, hi: real, radius: real, show: NumberFormat)
    requires lo < hi
    ensures Apply(Linear(lo, hi), radius, Num(lo), show) == At(0.0)
    ensures Apply(Linear(lo, hi), radius, Num(hi), show) == At(radius)
  {
  }

  /** A domain of one number sends every number to the centre. */
  lemma LinearDegenerate(x: real, radius: real, v: Value, show: NumberFormat)
    requires AsNumber(v).Some?
    ensures Apply(Linear(x, x), radius, v, show) == At(0.0)
  {
  }

  /** Numbers inside the domain land between the centre and the outer circle. */
  lemma LinearWithinRange(lo: real, hi: real, radius: real, v: Value, show: NumberFormat)
    requires 0.0 <= radius && AsNumber(v).Some? && lo <= AsNumber(v).value <= hi
    ensures Apply(Linear(lo, hi), radius, v, show).At?
    ensures 0.0 <= Apply(Linear(lo, hi), radius, v, show).r <= radius
  {
    var x := AsNumber(v).value;
    if lo < hi {
      FractionOfRadius(x - lo, hi - lo, radius);
    }
  }

  /** `a / b` of a non-negative radius, for `0 <= a <= b`, lies in `[0, radius]`. */
  lemma FractionOfRadius(a: real, b: real, radius: real)
    requires 0.0 <= a <= b && 0.0 < b && 0.0 <= radius
    ensures 0.0 <= a / b * radius <= radius
  {
    var t := a / b;
    assert t * b == a;
    assert 0.0 <= t <= 1.0;
    assert t * radius <= radius;
  }
}

=== FILE: values.dfy ===
/** Raw field values of a record, their JavaScript coercions, and the chart's errors. */
module Values {
  import opened Wrappers

  /** What a record field can hold; `Undef` is JavaScript's `undefined`, also read for a missing key. */
  datatype Value = Num(x: real) | Str(s: string) | Bool(b: bool) | Undef

  /**
   * `String(x)` for a JavaScript number. The engine's number formatting is
   * not part of this model, so every operation that turns numbers into text
   * takes it as a parameter.
   */
  type NumberFormat = real -> string

  /** `String(v)`, the text d3 uses as the key of a value and `d + ""` in a tick formatter. */
  function Text(v: Value, show: NumberFormat): (t: string)
    ensures v.Str? ==> t == v.s
    ensures v.Num? ==> t == show(v.x)
    ensures v.Bool? ==> (t == "true" <==> v.b) && (t == "false" <==> !v.b)
    ensures v.Undef? ==> t == "undefined"
  {
    match v
    case Num(x) => show(x)
    case Str(s) => s
    case Bool(b) => if b then "true" else "false"
    case Undef => "undefined"
  }

  /**
   * The number read from a value when it is compared or interpolated:
   * numbers, and booleans as 1 and 0, as JavaScript's `+v` does. Strings
   * give `None`; `+v` would convert them, which this model does not do.
   */
  function AsNumber(v: Value): (r: Option<real>)
    ensures r.Some? <==> v.Num? || v.Bool?
    ensures v.Num? ==> r == Some(v.x)
    ensures v.Bool? ==> r == Some(if v.b then 1.0 else 0.0)
  {
    match v
    case Num(x) => Some(x)
    case Bool(b) => Some(if b then 1.0 else 0.0)
    case _ => None
  }

  /**
   * Where the chart code would throw a TypeError, and one case of the
   * model's own: a size that is not a number, which JavaScript coerces.
   */
  datatype Error =
    | EmptyDataset                 // `data[0]` is undefined, so `Object.keys(data[0])` throws
    | FieldsNotAList               // a `fields` option that is neither loosely `false` nor an array
    | ScalesNotATable              // a `scalesAndAxes` option that is not an object of scale/axis pairs
    | MissingScale(field: string)  // `autos[k].scale` with no entry for `k`
    | SizeNotANumber(key: string)  // `w` or `h` is not a number (refused by the model, not by the code)
}

=== FILE: wrappers.dfy ===
/** Failure-compatible Option and Result types used across the radar chart model. */
module Wrappers {

  datatype Option<+T> = None | Some(value: T) {
    predicate IsFailure() {
      None?
    }

    function PropagateFailure<U>(): Option<U>
      requires None?
    {
      None
    }

    function Extract(): T
      requires Some?
    {
      value
    }
  }

  datatype Result<+R, +E> = Success(value: R) | Failure(error: E) {
    predicate IsFailure() {
      Failure?
    }

    function PropagateFailure<U>(): Result<U, E>
      requires Failure?
    {
      Failure(error)
    }

    function Extract(): R
      requires Success?
    {
      value
    }
  }
}
